=== FILE: README.md ===
# Looping carousel: a Dafny model

This project models the looping carousel ("slider") of the `Swiper` class in
`assets/js/custom_js/custom.js`. The carousel shows one, two or three slides
at a time, depending on the window width. It loops forever by padding the
slide list with clones at both ends. When a transition ends in the first or
last `spv` positions of the padded list, the index snaps without animation to
`spv + realIndex` or to `len - 2 spv + realIndex`.

With the DOM stripped away, the carousel is an integer state machine:

- `State` holds the number of originals `n`, the slides per view `spv`, the
  current index `ci` into the padded list, the padded length `len`, the
  `animating` flag and the two touch positions.
- Every handler is a pure function from state to state: `next`, `prev`,
  `goToSlide`, the transition end, resize, the autoplay tick and the three
  touch handlers. `Step` dispatches an `Event` to its handler, and `Run`
  folds a sequence of events.
- The padded slide list is a `seq<nat>` of original indices (`Layout.Padded`).
  `Layout.BuildPadded` builds it with the constructor's two loops, append
  first and then prepend.
- JavaScript's truncating `%` is `JsMath.Rem`. Dafny's own `%` is Euclidean,
  and the two differ on negative dividends, which `getRealIndex` can produce.

Modules: `JsMath` (integers as the script computes them), `Viewport`
(breakpoints), `Layout` (the padded sequence), `Carousel` (state, events,
handlers), `Rendering` (active markers), `Invariants` (properties of whole
runs), `Edges` (the snap read against the padded sequence), `Scenarios`
(concrete event sequences).

What the proofs establish about the code as written:

- From construction on, the index stays at or above `spv`. The only
  exception is one position below it during a backward transition. The
  real index therefore stays in `[0, n)`, and exactly one dot is active.
  This holds for every run in which a resize never crosses a breakpoint and
  every dot click names an existing dot.
- Widening the window does break this. Two slides at 500 px, then two
  presses back, a resize to 1200 px and one more press back, leave the real
  index at -1 with no dot active.
- The upper-edge snap always keeps both the slide on screen and the active dot.
- The lower-edge snap keeps them only when the leading clones cover every
  original (`n <= 3 spv`). It stays inside the padded list only when the
  real index is below `2 spv`. From construction on, the snap only follows a
  press back from index `spv`, where dot 0 is active, with the real index then
  at `n - 1`. Going back from dot 0 therefore leaves the list, with no slide
  shown, exactly when `n > 2 spv`: on a narrow window, any carousel of three
  or more slides. With five slides there, three presses back send the index
  to 13 of 11 slides.
- The active dot is offset from the first slide on screen by
  `min(3 spv, n) - spv` modulo `n`.

## Behaviour at the start

Five slides at 1200 px start at index 9, which shows original 4, the last
one, while dot 1 is active: `getRealIndex` gives `(9 - 3 + 5) % 5 = 1`
(`Scenarios.FiveSlidesOnDesktop`). The active dot is
`(currentIndex - slidesPerView + n) % n`, not the original on screen.

## Model

| member | source | states |
|---|---|---|
| JsMath.Rem | assets/js/custom_js/custom.js:143 | JavaScript's remainder lies strictly between `-n` and `n`, is congruent to the dividend modulo `n` and has the dividend's sign |
| Viewport.SlidesPerView | assets/js/custom_js/custom.js:240-244 | three slides at 1024 px and wider, two from 768 px up to 1024 px, one below 768 px |
| Viewport.SlidesPerViewMonotone | assets/js/custom_js/custom.js:240-244 | a wider window never shows fewer slides |
| Viewport.SlidesPerViewExamples | assets/js/custom_js/custom.js:240-244 | 800 px shows two slides, 1200 px three and 500 px one |
| Layout.ClonesCount | assets/js/custom_js/custom.js:80 | `Math.ceil(3 * slidesPerView)` for a whole count of slides per view: at least three clones after the originals |
| Layout.PrefixLength | assets/js/custom_js/custom.js:88-92 | the clones inserted before the originals number `min(clones, n)`, the originals from `max(0, n - clones)` up: at least one and at most `n` when there are clones, never more than the clones |
| Layout.Padded | assets/js/custom_js/custom.js:79-94 | the padded list has `min(clones, n) + n + clones` slides |
| Layout.BuildPadded | assets/js/custom_js/custom.js:80-94 | appending the cyclic clones and then inserting `max(0, n - clones)..n-1` at the front, last first, yields the padded sequence |
| Layout.PaddedClosedForm | assets/js/custom_js/custom.js:82-92 | position `k` of the padded list shows original `(k - min(clones, n)) mod n`, in the clones as well as among the originals |
| Layout.PaddedIsCyclic | assets/js/custom_js/custom.js:82-92 | neighbouring slides of the padded list are neighbours in the originals' cyclic order |
| Layout.PaddedHoldsOriginals | assets/js/custom_js/custom.js:79-94 | the block after the leading clones is the originals, in order |
| Carousel.Setup | assets/js/custom_js/custom.js:65-97 | no carousel exists when there are no slides; otherwise `spv` follows the width, `len` is the padded length, the index starts at `3 spv`, nothing animates and both touch positions are 0 |
| Carousel.RealIndex | assets/js/custom_js/custom.js:142-144 | the real index is congruent to `ci - spv` modulo `n`, lies strictly between `-n` and `n`, is non-negative when `ci - spv + n` is, and non-positive when it is not |
| Carousel.NextSlide | assets/js/custom_js/custom.js:212-216 | ignored while animating; otherwise the index moves up by one, the transition starts, nothing else changes, and the real index becomes its cyclic successor |
| Carousel.PrevSlide | assets/js/custom_js/custom.js:218-222 | ignored while animating; otherwise the index moves down by one, the transition starts, nothing else changes, and the real index becomes its cyclic predecessor |
| Carousel.GoToSlide | assets/js/custom_js/custom.js:224-230 | ignored while animating; otherwise the index moves by exactly `i - realIndex`, not by the shortest way round, and the transition starts; for dot `i` the real index becomes `i`, the index stays at or above `spv` if it was, and it stays put exactly when `i` is already the real index |
| Carousel.EndTransition | assets/js/custom_js/custom.js:116-140 | the transition ends in every branch; at the upper edge the index becomes `spv + realIndex`, and when `len >= 2 spv` that keeps the real index and lands in `[spv, spv + n)`; mid-range the index stays; at the lower edge it becomes `len - 2 spv + realIndex`, in `[len - 2 spv, len - 2 spv + n)` when the real index is non-negative |
| Carousel.ResizeTo | assets/js/custom_js/custom.js:176-179 | the slides per view follow the new width; index, padded length, flag and touch positions are kept |
| Carousel.SwipeOf | assets/js/custom_js/custom.js:165-168 | a touch is a next-swipe iff it lasts under 250 ms and moved more than 30 px left, a prev-swipe iff under 250 ms and more than 30 px right |
| Carousel.TouchStartAt | assets/js/custom_js/custom.js:154-158 | ignored while animating; otherwise records the start position and keeps the last move position |
| Carousel.TouchMoveTo | assets/js/custom_js/custom.js:171-174 | ignored while animating; otherwise records the move position and nothing else |
| Carousel.TouchEndAfter | assets/js/custom_js/custom.js:160-169 | ignored while animating; a left swipe is `next()`, a right swipe is `prev()`, anything else changes nothing |
| Carousel.Step | assets/js/custom_js/custom.js:146-180 | no event changes the number of originals or the padded length, and only a resize changes the slides per view |
| Carousel.Run | assets/js/custom_js/custom.js:146-180 | a run keeps the number of originals and the padded length, and without resizes the slides per view too |
| Rendering.ActiveSlides | assets/js/custom_js/custom.js:185-189 | one `active` marker per slide of the padded list; `Edges.ActiveSlidesShow` states which are set |
| Rendering.ActiveDots | assets/js/custom_js/custom.js:191-194 | one `active` marker per pagination dot, that is per original; `Rendering.OneDotActiveIff` states which is set |
| Rendering.ActiveSlideCount | assets/js/custom_js/custom.js:185-189 | the active slides are the overlap of `[ci, ci + spv)` with the padded list: `spv` of them when the window fits, none when the index has left the list |
| Rendering.OneDotActiveIff | assets/js/custom_js/custom.js:191-194 | exactly one dot is active iff the real index is non-negative, that dot is the real index, and none is active otherwise |
| Invariants.SetupEstablishesInv | assets/js/custom_js/custom.js:79-97 | the constructor leaves the index at or above `spv` with a padded list of at least `3 spv` slides |
| Invariants.RealIndexInRange | assets/js/custom_js/custom.js:142-144 | under the invariant the real index is a valid dot number in `[0, n)` |
| Invariants.StepPreservesInv | assets/js/custom_js/custom.js:116-230 | every event preserves the invariant, given that a dot click names an existing dot and a resize does not raise the slides per view |
| Invariants.RunPreservesInv | assets/js/custom_js/custom.js:116-230 | a whole run preserves the invariant and the slides per view when its resizes stay within the breakpoint |
| Invariants.ExactlyOneDotActive | assets/js/custom_js/custom.js:182-195 | after construction and any such run, exactly one pagination dot is active |
| Invariants.BusyIgnoresInput | assets/js/custom_js/custom.js:154-230 | while a transition runs, every navigation, autoplay tick and touch leaves the state unchanged |
| Invariants.SecondNavigationDropped | assets/js/custom_js/custom.js:197-230 | after one navigation from idle the carousel is animating, and a second input before the transition ends is dropped |
| Invariants.AutoplayIsNext | assets/js/custom_js/custom.js:232-237 | the autoplay tick behaves exactly as the next button, moving one slide forward when idle |
| Invariants.NextThenPrevRestores | assets/js/custom_js/custom.js:116-222 | away from the edges, next and prev, each followed by its transition end, restore the state |
| Edges.UpperEdgeSnap | assets/js/custom_js/custom.js:121-128 | the upper-edge snap lands in `[spv, len - spv)` and keeps the real index and the slide on screen |
| Edges.LowerEdgeSnap | assets/js/custom_js/custom.js:130-137 | the lower-edge snap lands at or above `spv`; it keeps the real index, and the slide on screen, iff `n <= 3 spv`; it stays inside the padded list iff the real index is below `2 spv` |
| Edges.BackPastFirstLeavesList | assets/js/custom_js/custom.js:130-137 | under the invariant the lower-edge snap starts at index `spv - 1` with the last original as real index, and it leaves the padded list iff `n > 2 spv` |
| Edges.DotOffsetFromVisible | assets/js/custom_js/custom.js:142-144 | the real index equals the slide on screen plus `min(3 spv, n) - spv`, modulo `n` |
| Edges.DotShowsVisibleIff | assets/js/custom_js/custom.js:191-194 | the active dot names the slide on screen iff `min(3 spv, n) - spv` is a multiple of `n` |
| Edges.ActiveSlidesShow | assets/js/custom_js/custom.js:185-189 | when the window `[ci, ci + spv)` lies inside the padded list, active position `ci + j` shows original `(visible + j) mod n`, so the active slides are consecutive originals; its first clause only unfolds which positions are active |
| Scenarios.FiveSlidesOnDesktop | assets/js/custom_js/custom.js:79-97 | five slides at 1200 px give 9 clones, 19 slides, start index 9 showing original 4, and real index 1 |
| Scenarios.SwipeLeftIsNext | assets/js/custom_js/custom.js:160-169 | a 40 px left swipe in 150 ms is one `next()` |
| Scenarios.StaleMoveMakesTapNavigate | assets/js/custom_js/custom.js:154-174 | a quick tap after a slow swipe navigates, because a touch start keeps the previous move position |
| Scenarios.OvershootRun | assets/js/custom_js/custom.js:116-140 | five slides at 500 px and three presses back, each with its transition end, end at index 13 of the 11-slide list, idle |
| Scenarios.LowerEdgeOvershoot | assets/js/custom_js/custom.js:130-137 | five slides at 500 px and three presses back leave the index at 13 of 11 slides, with no slide active |
| Scenarios.WideningRun | assets/js/custom_js/custom.js:116-222 | two slides at 500 px, two presses back, a resize to 1200 px and a press back end at index 0 with three slides per view, idle |
| Scenarios.WideningResizeLosesDot | assets/js/custom_js/custom.js:176-179 | a resize from 500 px to 1200 px followed by one press back leaves the real index at -1 and no dot active |

## Left out

- The count-up animation (`counterUp`, lines 1-53) is left out. It is
  floating-point accumulation driven by `setTimeout` and an
  `IntersectionObserver`, with `toLocaleString` formatting.
- DOM work is left out: cloning and inserting nodes, the `clone` and
  `active` class toggles, and the inline `flex` and `translateX` styles.
  Slides are indices, and the active markers are `Rendering.ActiveSlides`
  and `Rendering.ActiveDots`. The offset `-ci * 100 / spv` is a
  floating-point percentage and is not modelled.
- The `no-transition` class and its `requestAnimationFrame` removal only
  suppress the animation of the snap, so they are left out.
- Timers and browser events are not modelled as time. The 5000 ms autoplay
  interval is the `AutoplayTick` event. The browser's `transitionend` is the
  `TransitionEnd` event, which may arrive in any state; the model does not
  decide when the browser fires it.
- `Date` timestamps are left out: `TouchEnd` carries the touch duration. A
  touch end with no recorded start time yields a `NaN` duration, which is
  never a swipe; the model does not cover that case. It also does not cover
  a start time left stale by a touch start that was ignored during a
  transition, since the caller supplies the duration.
- Touch positions are whole pixels; browsers report `clientX` as a
  floating-point number.
- `init` (lines 99-114) builds the dots with dot 0 marked active and then
  calls `updateActiveStates` right away, so only the derived
  `Rendering.ActiveDots` is modelled. The dot click handler's own
  `isAnimating` check duplicates the one in `goToSlide`.
- The bootstrap handlers (`document.ready`, `DOMContentLoaded`) and missing
  markup (no wrapper, pagination or buttons) are left out. The one failure
  that depends on the data, construction over zero slides, is
  `Carousel.Setup` returning `None`.
- Invariants.ExactlyOneDotActive: holds only for runs whose resizes stay
  within the starting breakpoint and whose dot clicks name existing dots.
  The unrestricted promise that the real index always lies in `[0, n)` is
  false of the code, as `Scenarios.WideningResizeLosesDot` shows.
- Edges.LowerEdgeSnap: states that the snap is invisible only when
  `n <= 3 spv`. The unrestricted promise, that a snap never changes the
  real index or the slide on screen, is false of the code's lower-edge
  branch.

=== FILE: carousel.dfy ===
/** The looping carousel of the `Swiper` class as a pure state machine. The
    DOM is gone: slides are positions in the padded sequence, and every event
    handler is a function from the old state to the new one. */
module Carousel {
  import opened JsMath
  import opened Viewport
  import opened Layout

  datatype Option<T> = None | Some(value: T)

  /** The instance fields the carousel logic reads and writes: `n` is
      `totalOriginalSlides`, `spv` is `slidesPerView`, `ci` is
      `currentIndex`, `len` is the length of the padded `slides` array and
      `animating` is `isAnimating`. */
  datatype State = State(
    n: Pos,
    spv: Spv,
    ci: int,
    len: nat,
    animating: bool,
    touchStartX: int,
    touchMoveX: int)

  /** The inputs the carousel reacts to. `GoTo(i)` is a click on pagination
      dot `i`; a touch end carries the time since the touch started, in
      milliseconds. */
  datatype Event =
    | Next
    | Prev
    | GoTo(i: int)
    | TransitionEnd
    | Resize(width: int)
    | AutoplayTick
    | TouchStart(x: int)
    | TouchMove(x: int)
    | TouchEnd(duration: int)

  /** What a finished touch asks for. */
  datatype Swipe = NoSwipe | SwipeNext | SwipePrev

  /** A touch is a swipe when it lasts under this many milliseconds ... */
  const SwipeMaxDuration := 250
  /** ... and travels more than this many pixels horizontally. */
  const SwipeMinDistance := 30

  /** The fields fixed at construction, and the touch positions, are unchanged
      from `s` to `r`: only the index and the animation flag may differ. */
  predicate OnlyIndexMoved(s: State, r: State)
  {
    r.n == s.n && r.spv == s.spv && r.len == s.len
    && r.touchStartX == s.touchStartX && r.touchMoveX == s.touchMoveX
  }

  /** The constructor's work on the state: `getSlidesPerView` at the current
      width, then `setupClones`. With no slides the constructor throws (the
      first clone is taken from `originalSlides[0 % 0]`, which is undefined),
      so there is no carousel. Otherwise the index starts at the clone count,
      without animation. */
  function Setup(n: nat, width: int): (r: Option<State>)
    ensures r.None? <==> n == 0
    ensures r.Some? ==> r.value.n == n && r.value.spv == SlidesPerView(width)
    ensures r.Some? ==> r.value.len == |Padded(r.value.n, ClonesCount(r.value.spv))|
    ensures r.Some? ==> r.value.ci == ClonesCount(r.value.spv) && !r.value.animating
    ensures r.Some? ==> r.value.touchStartX == 0 && r.value.touchMoveX == 0
  {
    if n == 0 then None
    else
      var spv := SlidesPerView(width);
      var clones := ClonesCount(spv);
      Some(State(n, spv, clones, PrefixLength(n, clones) + n + clones, false, 0, 0))
  }

  /** `getRealIndex`: `(currentIndex - slidesPerView + n) % n` with
      JavaScript's truncating remainder. It is the residue of
      `ci - spv` modulo `n`, and it is negative only when the dividend is. */
  function RealIndex(s: State): (r: int)
    ensures -(s.n as int) < r < s.n
    ensures (s.ci - s.spv - r) % s.n == 0
    ensures s.ci - s.spv + s.n >= 0 ==> r >= 0
    ensures s.ci - s.spv + s.n <= 0 ==> r <= 0
  {
    var a := s.ci - s.spv + s.n;
    var r := Rem(a, s.n);
    ModAddMultiple(a - r, -1, s.n);
    r
  }

  /** For a non-negative dividend, the real index is the Euclidean residue. */
  lemma RealIndexIsResidue(s: State)
    requires s.ci - s.spv + s.n >= 0
    ensures RealIndex(s) == (s.ci - s.spv + s.n) % s.n
  {
  }

  /** `next()`: ignored while a transition runs; otherwise one slide forward
      and the transition starts. The active dot moves to the cyclic successor. */
  function NextSlide(s: State): (r: State)
    ensures s.animating ==> r == s
    ensures !s.animating ==> r.animating && r.ci == s.ci + 1 && OnlyIndexMoved(s, r)
    ensures !s.animating && s.ci - s.spv + s.n >= 0 ==>
      RealIndex(r) == (RealIndex(s) + 1) % s.n
  {
    if s.animating then s
    else
      var r := s.(ci := s.ci + 1, animating := true);
      if s.ci - s.spv + s.n >= 0 then
        RealIndexIsResidue(s);
        RealIndexIsResidue(r);
        NextResidue(s.ci - s.spv + s.n, s.n);
        r
      else r
  }

  /** `prev()`: ignored while a transition runs; otherwise one slide back and
      the transition starts. The active dot moves to the cyclic predecessor. */
  function PrevSlide(s: State): (r: State)
    ensures s.animating ==> r == s
    ensures !s.animating ==> r.animating && r.ci == s.ci - 1 && OnlyIndexMoved(s, r)
    ensures !s.animating && s.ci - 1 - s.spv + s.n >= 0 ==>
      RealIndex(r) == (RealIndex(s) - 1) % s.n
  {
    if s.animating then s
    else
      var r := s.(ci := s.ci - 1, animating := true);
      if s.ci - 1 - s.spv + s.n >= 0 then
        RealIndexIsResidue(s);
        RealIndexIsResidue(r);
        PrevResidue(s.ci - s.spv + s.n, s.n);
        r
      else r
  }

  /** Moving a non-negative `a` by `i - a % n` lands on residue `i`. */
  lemma GoToResidue(a: int, i: int, n: Pos)
    requires a >= 0 && 0 <= i < n
    ensures (a + i - a % n) % n == i
  {
    ModAddMultiple(i, a / n, n);
    DivModUnique(i, 0, i, n);
    assert a + i - a % n == i + (a / n) * n;
  }

  /** Rounding a non-negative `a` down to a multiple of `n` leaves a
      non-negative number, and at least `n` when `a >= n`. */
  lemma GoToAbove(a: int, n: Pos)
    requires a >= 0
    ensures a - a % n >= 0
    ensures a >= n ==> a - a % n >= n
  {
    if a < n {
      DivModUnique(a, 0, a, n);
    } else {
      var x := a - n;
      ModAddMultiple(x, 1, n);
      assert x + 1 * n == a;
      if x < n {
        DivModUnique(x, 0, x, n);
      }
    }
  }

  /** Where `goToSlide(i)` lands when the dividend of the real index is
      non-negative: on real index `i` for a dot `i`, and not below `spv` if
      it started there. */
  lemma GoToLands(s: State, i: int)
    requires s.ci - s.spv + s.n >= 0
    ensures var r := s.(ci := s.ci + (i - RealIndex(s)), animating := true);
      && (0 <= i < s.n ==> RealIndex(r) == i)
      && (0 <= i && s.ci >= s.spv ==> r.ci >= s.spv)
  {
    var a := s.ci - s.spv + s.n;
    var ri := RealIndex(s);
    RealIndexIsResidue(s);
    GoToAbove(a, s.n);
    var r := s.(ci := s.ci + (i - ri), animating := true);
    assert r.ci - r.spv + r.n == a + i - ri;
    if 0 <= i < s.n {
      GoToResidue(a, i, s.n);
      RealIndexIsResidue(r);
    }
  }

  /** `goToSlide(i)`: ignored while a transition runs; otherwise the index
      moves by the raw difference between `i` and the real index, and the
      transition starts. For a dot `i` of the pagination, the real index
      becomes `i`; the index stays at or above `spv` if it was; and the index
      stays put exactly when `i` already is the real index. */
  function GoToSlide(s: State, i: int): (r: State)
    ensures s.animating ==> r == s
    ensures !s.animating ==> r.animating && OnlyIndexMoved(s, r)
    ensures !s.animating ==> r.ci == s.ci + (i - RealIndex(s))
    ensures !s.animating ==> (r.ci == s.ci <==> i == RealIndex(s))
    ensures !s.animating && 0 <= i < s.n && s.ci - s.spv + s.n >= 0 ==> RealIndex(r) == i
    ensures !s.animating && 0 <= i && s.ci >= s.spv ==> r.ci >= s.spv
  {
    if s.animating then s
    else if s.ci - s.spv + s.n >= 0 then
      GoToLands(s, i);
      s.(ci := s.ci + (i - RealIndex(s)), animating := true)
    else
      s.(ci := s.ci + (i - RealIndex(s)), animating := true)
  }

  /** `handleTransitionEnd`: at the upper edge (the last `spv` positions)
      the index snaps to `spv + realIndex`, which keeps the real index; at the
      lower edge (the first `spv` positions) it snaps to
      `len - 2 spv + realIndex`; in between it stays. The real index is taken
      before the snap. In every case the transition is over. */
  function EndTransition(s: State): (r: State)
    ensures !r.animating && OnlyIndexMoved(s, r)
    ensures s.ci >= s.len - s.spv ==> r.ci == s.spv + RealIndex(s)
    ensures s.ci >= s.len - s.spv && s.len >= 2 * s.spv ==>
      RealIndex(r) == RealIndex(s) && s.spv <= r.ci < s.spv + s.n
    ensures s.spv <= s.ci < s.len - s.spv ==> r.ci == s.ci
    ensures s.ci < s.spv && s.ci < s.len - s.spv ==> r.ci == s.len - 2 * s.spv + RealIndex(s)
    ensures s.ci < s.spv && s.ci < s.len - s.spv && s.ci - s.spv + s.n >= 0 ==>
      s.len - 2 * s.spv <= r.ci < s.len - 2 * s.spv + s.n
  {
    var realIndex := RealIndex(s);
    if s.ci >= s.len - s.spv then
      var r := s.(ci := s.spv + realIndex, animating := false);
      if s.len >= 2 * s.spv then
        ModAddMultiple(realIndex, 1, s.n);
        DivModUnique(realIndex, 0, realIndex, s.n);
        RealIndexIsResidue(r);
        r
      else r
    else if s.ci < s.spv then
      s.(ci := s.len - 2 * s.spv + realIndex, animating := false)
    else
      s.(animating := false)
  }

  /** The window's resize handler: the slides per view follow the new width;
      the index, the padded sequence and the animation flag stay as they are. */
  function ResizeTo(s: State, width: int): (r: State)
    ensures r.spv == SlidesPerView(width)
    ensures r.n == s.n && r.ci == s.ci && r.len == s.len && r.animating == s.animating
    ensures r.touchStartX == s.touchStartX && r.touchMoveX == s.touchMoveX
  {
    s.(spv := SlidesPerView(width))
  }

  /** The swipe decision of the touch-end handler: a touch shorter than
      `SwipeMaxDuration` that travelled more than `SwipeMinDistance` to the
      left asks for the next slide, to the right for the previous one. */
  function SwipeOf(duration: int, startX: int, moveX: int): (g: Swipe)
    ensures g == SwipeNext <==> duration < SwipeMaxDuration && startX - moveX > SwipeMinDistance
    ensures g == SwipePrev <==> duration < SwipeMaxDuration && moveX - startX > SwipeMinDistance
  {
    if duration < SwipeMaxDuration && Abs(moveX - startX) > SwipeMinDistance then
      if moveX < startX then SwipeNext else SwipePrev
    else NoSwipe
  }

  /** The touch-start handler: records where the touch began, unless a
      transition runs. The last move position is left as it was. */
  function TouchStartAt(s: State, x: int): (r: State)
    ensures s.animating ==> r == s
    ensures !s.animating ==> r.touchStartX == x
    ensures r.touchMoveX == s.touchMoveX && r.ci == s.ci && r.animating == s.animating
    ensures r.n == s.n && r.spv == s.spv && r.len == s.len
  {
    if s.animating then s else s.(touchStartX := x)
  }

  /** The touch-move handler: records the latest position, unless a transition runs. */
  function TouchMoveTo(s: State, x: int): (r: State)
    ensures s.animating ==> r == s
    ensures !s.animating ==> r.touchMoveX == x
    ensures r.touchStartX == s.touchStartX && r.ci == s.ci && r.animating == s.animating
    ensures r.n == s.n && r.spv == s.spv && r.len == s.len
  {
    if s.animating then s else s.(touchMoveX := x)
  }

  /** The touch-end handler: unless a transition runs, a swipe left is
      `next()`, a swipe right is `prev()`, and anything else does nothing. */
  function TouchEndAfter(s: State, duration: int): (r: State)
    ensures !s.animating && duration < SwipeMaxDuration && s.touchStartX - s.touchMoveX > SwipeMinDistance ==>
      r == NextSlide(s)
    ensures !s.animating && duration < SwipeMaxDuration && s.touchMoveX - s.touchStartX > SwipeMinDistance ==>
      r == PrevSlide(s)
    ensures s.animating || duration >= SwipeMaxDuration || Abs(s.touchMoveX - s.touchStartX) <= SwipeMinDistance ==>
      r == s
  {
    if s.animating then s
    else
      match SwipeOf(duration, s.touchStartX, s.touchMoveX)
      case SwipeNext => NextSlide(s)
      case SwipePrev => PrevSlide(s)
      case NoSwipe => s
  }

  /** One event. The autoplay timer calls `next()` only when no transition
      runs, which is what `next()` itself checks. Whatever happens, the
      number of originals and the padded length stay fixed, and only a
      resize changes the slides per view. */
  function Step(s: State, e: Event): (r: State)
    ensures r.n == s.n && r.len == s.len
    ensures !e.Resize? ==> r.spv == s.spv
  {
    match e
    case Next => NextSlide(s)
    case Prev => PrevSlide(s)
    case GoTo(i) => GoToSlide(s, i)
    case TransitionEnd => EndTransition(s)
    case Resize(w) => ResizeTo(s, w)
    case AutoplayTick => if s.animating then s else NextSlide(s)
    case TouchStart(x) => TouchStartAt(s, x)
    case TouchMove(x) => TouchMoveTo(s, x)
    case TouchEnd(d) => TouchEndAfter(s, d)
  }

  /** A sequence of events, handled one after the other. */
  function Run(s: State, events: seq<Event>): (r: State)
    ensures r.n == s.n && r.len == s.len
    ensures (forall k :: 0 <= k < |events| ==> !events[k].Resize?) ==> r.spv == s.spv
    decreases |events|
  {
    if |events| == 0 then s
    else Run(Step(s, events[0]), events[1..])
  }
}

=== FILE: edges.dfy ===
/** The transition-end index snap, read against the padded sequence it was
    built for: which slide is on screen before and after the snap, and which
    dot is active. */
module Edges {
  import opened JsMath
  import opened Layout
  import opened Carousel
  import opened Rendering
  import opened Invariants

  /** The padded length still matches the slides per view: no resize has
      crossed a breakpoint since the clones were built. */
  predicate Aligned(s: State)
  {
    s.len == |Padded(s.n, ClonesCount(s.spv))|
  }

  /** The original shown in the first visible position. */
  function Visible(s: State): (v: nat)
    requires Aligned(s) && 0 <= s.ci < s.len
    ensures v < s.n
  {
    PaddedAt(s.n, ClonesCount(s.spv), s.ci);
    Padded(s.n, ClonesCount(s.spv))[s.ci]
  }

  /** The leading clone count is a multiple of `n` exactly when it covers all originals. */
  lemma PrefixResidue(n: Pos, spv: int)
    requires spv >= 1
    ensures PrefixLength(n, ClonesCount(spv)) % n == 0 <==> n <= 3 * spv
  {
  }

  /** The negation of a multiple of `n` is a multiple of `n`. */
  lemma NegateMultiple(x: int, n: Pos)
    requires x % n == 0
    ensures (-x) % n == 0
  {
    DivModUnique(-x, -(x / n), 0, n);
  }

  /** The residue arithmetic of the lower-edge snap: when `ri` is congruent
      to `x - d`, moving from `x - p` to `n + d + ri` keeps the residue
      exactly when `p` is a multiple of `n`. */
  lemma SnapResidue(x: int, p: int, d: int, ri: int, n: Pos)
    requires (x - d - ri) % n == 0
    ensures (n + d + ri) % n == (x - p) % n <==> p % n == 0
  {
    var diff := (n + d + ri) - (x - p);
    var q := (x - d - ri) / n;
    assert x - d - ri == q * n;
    assert diff - p == (1 - q) * n + 0;
    DivModUnique(diff - p, 1 - q, 0, n);
    SameResidue(diff, p, n);
    SameResidue(n + d + ri, x - p, n);
  }

  /** The upper-edge snap keeps the slide on screen and the active dot, and
      lands among the real positions `[spv, len - spv)`. */
  lemma UpperEdgeSnap(s: State)
    requires Aligned(s) && s.len - s.spv <= s.ci < s.len
    ensures var r := EndTransition(s);
      && s.spv <= r.ci < s.len - s.spv
      && RealIndex(r) == RealIndex(s)
      && Aligned(r) && Visible(r) == Visible(s)
  {
    var r := EndTransition(s);
    var ri := RealIndex(s);
    assert r.ci == s.spv + ri;
    assert (s.ci - s.spv + s.n - ri) % s.n == 0;
    ModAddMultiple(s.ci - s.spv - ri, 1, s.n);
    assert s.ci - s.spv - ri + 1 * s.n == s.ci - s.spv + s.n - ri;
    UpperSlide(s.n, s.spv, s.ci, ri);
  }

  /** The slide arithmetic of the upper-edge snap on the padded sequence:
      moving from `ci` to `spv + ri`, with `ri` congruent to `ci - spv`,
      keeps the slide on screen. */
  lemma UpperSlide(n: Pos, spv: int, ci: int, ri: int)
    requires spv >= 1
    requires 0 <= ci < |Padded(n, ClonesCount(spv))| && 0 <= spv + ri < |Padded(n, ClonesCount(spv))|
    requires (ci - spv - ri) % n == 0
    ensures Padded(n, ClonesCount(spv))[spv + ri] == Padded(n, ClonesCount(spv))[ci]
  {
    var c := ClonesCount(spv);
    var m := PrefixLength(n, c);
    PaddedAt(n, c, ci);
    PaddedAt(n, c, spv + ri);
    NegateMultiple(ci - spv - ri, n);
    assert (spv + ri - m) - (ci - m) == -(ci - spv - ri);
    SameResidue(spv + ri - m, ci - m, n);
  }

  /** After the lower-edge snap, the active dot is the residue of the
      leading clone count plus the old real index. */
  lemma LowerEdgeDot(s: State)
    requires Aligned(s) && 0 <= s.ci < s.spv && s.ci - s.spv + s.n >= 0
    ensures RealIndex(EndTransition(s)) == RealIndex(s) <==> s.n <= 3 * s.spv
  {
    var r := EndTransition(s);
    var n := s.n;
    var p := PrefixLength(n, ClonesCount(s.spv));
    var ri := RealIndex(s);
    assert r.ci - s.spv + n == (p + ri) + 2 * n;
    RealIndexIsResidue(r);
    ModAddMultiple(p + ri, 2, n);
    if p == n {
      ModAddMultiple(ri, 1, n);
      DivModUnique(ri, 0, ri, n);
    } else if p + ri < n {
      DivModUnique(p + ri, 0, p + ri, n);
    } else {
      DivModUnique(p + ri, 1, p + ri - n, n);
    }
  }

  /** The slide arithmetic of the lower-edge snap on the padded sequence:
      moving from `ci` to `len - 2 spv + ri` keeps the slide exactly when the
      leading clones cover every original. */
  lemma SnapSlide(n: Pos, spv: int, ci: int, ri: int)
    requires spv >= 1 && 0 <= ci < spv && 0 <= ri
    requires (ci - spv - ri) % n == 0
    requires |Padded(n, ClonesCount(spv))| - 2 * spv + ri < |Padded(n, ClonesCount(spv))|
    ensures var p := Padded(n, ClonesCount(spv));
      p[|p| - 2 * spv + ri] == p[ci] <==> n <= 3 * spv
  {
    var c := ClonesCount(spv);
    var m := PrefixLength(n, c);
    var t := |Padded(n, c)| - 2 * spv + ri;
    PaddedAt(n, c, ci);
    PaddedAt(n, c, t);
    assert t - m == n + spv + ri;
    SnapResidue(ci, m, spv, ri, n);
    PrefixResidue(n, spv);
  }

  /** After an in-range lower-edge snap, the slide on screen has moved by the
      residue of the leading clone count. */
  lemma LowerEdgeSlide(s: State)
    requires Aligned(s) && 0 <= s.ci < s.spv && s.ci - s.spv + s.n >= 0
    requires EndTransition(s).ci < s.len
    ensures Aligned(EndTransition(s))
    ensures Visible(EndTransition(s)) == Visible(s) <==> s.n <= 3 * s.spv
  {
    var r := EndTransition(s);
    var ri := RealIndex(s);
    assert r.ci == s.len - 2 * s.spv + ri;
    assert (s.ci - s.spv + s.n - ri) % s.n == 0;
    ModAddMultiple(s.ci - s.spv - ri, 1, s.n);
    assert s.ci - s.spv - ri + 1 * s.n == s.ci - s.spv + s.n - ri;
    SnapSlide(s.n, s.spv, s.ci, ri);
  }

  /** The lower-edge snap lands at or above `spv`. It keeps the active dot,
      and the slide on screen, exactly when the leading clones cover every
      original (`n <= 3 spv`); it stays inside the padded sequence exactly
      when the real index is below `2 spv`. */
  lemma LowerEdgeSnap(s: State)
    requires Aligned(s) && 0 <= s.ci < s.spv && s.ci - s.spv + s.n >= 0
    ensures var r := EndTransition(s);
      && r.ci >= s.spv
      && (RealIndex(r) == RealIndex(s) <==> s.n <= 3 * s.spv)
      && (r.ci < s.len <==> RealIndex(s) < 2 * s.spv)
      && (r.ci < s.len ==> Aligned(r) && (Visible(r) == Visible(s) <==> s.n <= 3 * s.spv))
  {
    LowerEdgeDot(s);
    if EndTransition(s).ci < s.len {
      LowerEdgeSlide(s);
    }
  }

  /** Under the invariant, the lower-edge snap only ever runs at the end of a
      press back from index `spv`, where dot 0 is active: the index is
      `spv - 1` and the real index is the last original. The snap then leaves the padded list,
      so that no slide is shown, exactly when there are more than `2 spv`
      originals. */
  lemma BackPastFirstLeavesList(s: State)
    requires Inv(s) && Aligned(s) && s.animating && s.ci < s.spv
    ensures s.ci == s.spv - 1 && RealIndex(s) == s.n - 1
    ensures EndTransition(s).ci >= s.len <==> s.n > 2 * s.spv
  {
    assert s.ci - s.spv + s.n == s.n - 1;
    DivModUnique(s.n - 1, 0, s.n - 1, s.n);
    LowerEdgeSnap(s);
  }

  /** The active dot is not the slide on screen: it is offset from it by the
      leading clone count minus `spv`, modulo `n`. */
  lemma DotOffsetFromVisible(s: State)
    requires Aligned(s) && 0 <= s.ci < s.len && s.ci - s.spv + s.n >= 0
    ensures RealIndex(s) == (Visible(s) + PrefixLength(s.n, ClonesCount(s.spv)) - s.spv) % s.n
  {
    var c := ClonesCount(s.spv);
    PaddedAt(s.n, c, s.ci);
    ShiftedResidue(s.ci, PrefixLength(s.n, c), s.spv, Visible(s), RealIndex(s), s.n);
  }

  /** Consequently the active dot names the slide on screen exactly when the
      leading clone count and `spv` agree modulo `n`. */
  lemma DotShowsVisibleIff(s: State)
    requires Aligned(s) && 0 <= s.ci < s.len && s.ci - s.spv + s.n >= 0
    ensures RealIndex(s) == Visible(s) <==> (PrefixLength(s.n, ClonesCount(s.spv)) - s.spv) % s.n == 0
  {
    var n := s.n;
    var p := PrefixLength(n, ClonesCount(s.spv));
    var v := Visible(s);
    DotOffsetFromVisible(s);
    DivModUnique(v, 0, v, n);
    SameResidue(v + p - s.spv, v, n);
  }

  /** The slides marked active are the `spv` positions from the index on, and
      while that window lies inside the padded list they show the originals
      that follow the one on screen, cyclically. */
  lemma ActiveSlidesShow(s: State)
    requires Aligned(s) && 0 <= s.ci && s.ci + s.spv <= s.len
    ensures forall k :: 0 <= k < s.len ==> (ActiveSlides(s)[k] <==> s.ci <= k < s.ci + s.spv)
    ensures var p := Padded(s.n, ClonesCount(s.spv));
      forall k :: s.ci <= k < s.ci + s.spv ==> p[k] == (Visible(s) + (k - s.ci)) % s.n
  {
    WindowShows(s.n, ClonesCount(s.spv), s.ci, s.ci + s.spv);
  }

  /** Positions `lo..hi-1` of the padded list show the originals following the
      one at `lo`, cyclically. */
  lemma WindowShows(n: Pos, clones: nat, lo: nat, hi: int)
    requires lo <= hi <= |Padded(n, clones)|
    ensures var p := Padded(n, clones);
      forall k :: lo <= k < hi ==> p[k] == (p[lo] + (k - lo)) % n
  {
    var p := Padded(n, clones);
    var m := PrefixLength(n, clones);
    PaddedClosedForm(n, clones);
    forall k | lo <= k < hi
      ensures p[k] == (p[lo] + (k - lo)) % n
    {
      AddResidue(lo - m, k - lo, n);
    }
  }
}

=== FILE: invariants.dfy ===
/** What stays true of the carousel across any sequence of events. */
module Invariants {
  import opened Viewport
  import opened Carousel
  import opened Rendering

  /** The index never falls below `spv`, the position where dot 0 is active,
      except by one while a backward transition runs, and the padded sequence is long enough
      for the lower-edge snap to land at or above `spv`. */
  predicate Inv(s: State)
  {
    s.len >= 3 * s.spv
    && s.ci >= s.spv - (if s.animating then 1 else 0)
  }

  /** Events that cannot break the invariant: a dot click names one of the
      `n` dots, and a resize does not raise the slides per view. */
  predicate Admissible(s: State, e: Event)
  {
    && (e.GoTo? ==> 0 <= e.i < s.n)
    && (e.Resize? ==> SlidesPerView(e.width) <= s.spv)
  }

  /** Every dot click in `events` names one of the `n` dots, and every resize
      lands on the breakpoint the carousel had at `s`. */
  predicate AdmissibleRun(s: State, events: seq<Event>)
  {
    && (forall k :: 0 <= k < |events| && events[k].GoTo? ==> 0 <= events[k].i < s.n)
    && (forall k :: 0 <= k < |events| && events[k].Resize? ==> SlidesPerView(events[k].width) == s.spv)
  }

  /** User input proper: navigation and touches, as opposed to the browser's
      transition-end and resize notifications. */
  predicate IsInput(e: Event)
  {
    !e.TransitionEnd? && !e.Resize?
  }

  /** The constructor establishes the invariant. */
  lemma SetupEstablishesInv(n: nat, width: int)
    requires n >= 1
    ensures Setup(n, width).Some? && Inv(Setup(n, width).value)
  {
  }

  /** Under the invariant the real index is a valid dot number. */
  lemma RealIndexInRange(s: State)
    requires Inv(s)
    ensures 0 <= RealIndex(s) < s.n
  {
  }

  /** Every admissible event preserves the invariant. */
  lemma StepPreservesInv(s: State, e: Event)
    requires Inv(s) && Admissible(s, e)
    ensures Inv(Step(s, e))
  {
  }

  /** A whole run of events keeps the invariant and the slides per view, as
      long as no resize crosses a breakpoint. */
  lemma {:induction false} RunPreservesInv(s: State, events: seq<Event>)
    requires Inv(s) && AdmissibleRun(s, events)
    ensures Inv(Run(s, events)) && Run(s, events).spv == s.spv
    decreases |events|
  {
    if |events| > 0 {
      var t := Step(s, events[0]);
      StepPreservesInv(s, events[0]);
      assert t.spv == s.spv;
      assert AdmissibleRun(t, events[1..]) by {
        forall k | 0 <= k < |events[1..]|
          ensures events[1..][k] == events[k + 1]
        {
        }
      }
      RunPreservesInv(t, events[1..]);
    }
  }

  /** From the constructor on, whatever the user does, exactly one
      pagination dot is active, as long as the window stays within its
      breakpoint. */
  lemma ExactlyOneDotActive(n: nat, width: int, events: seq<Event>)
    requires n >= 1
    requires AdmissibleRun(Setup(n, width).value, events)
    ensures CountTrue(ActiveDots(Run(Setup(n, width).value, events))) == 1
  {
    var s := Setup(n, width).value;
    SetupEstablishesInv(n, width);
    RunPreservesInv(s, events);
    RealIndexInRange(Run(s, events));
    OneDotActiveIff(Run(s, events));
  }

  /** While a transition runs, every navigation and touch is dropped. */
  lemma BusyIgnoresInput(s: State, e: Event)
    requires s.animating && IsInput(e)
    ensures Step(s, e) == s
  {
  }

  /** Two navigations in a row without a transition end between them: only
      the first one takes effect. */
  lemma SecondNavigationDropped(s: State, first: Event, second: Event)
    requires !s.animating
    requires first.Next? || first.Prev? || first.GoTo? || first.AutoplayTick?
    requires IsInput(second)
    ensures Step(s, first).animating
    ensures Step(Step(s, first), second) == Step(s, first)
  {
  }

  /** The autoplay tick is exactly a press of the next button. */
  lemma AutoplayIsNext(s: State)
    ensures Step(s, AutoplayTick) == Step(s, Next)
    ensures !s.animating ==> Step(s, AutoplayTick).ci == s.ci + 1
  {
  }

  /** Away from the edges, `prev()` undoes `next()`: one slide forward and one
      back, each followed by its transition end, restore the state. */
  lemma NextThenPrevRestores(s: State)
    requires !s.animating
    requires s.spv <= s.ci && s.ci + 1 < s.len - s.spv
    ensures Run(s, [Next, TransitionEnd, Prev, TransitionEnd]) == s
  {
  }
}

=== FILE: jsmath.dfy ===
/** Integer arithmetic as the carousel's JavaScript performs it on slide indices. */
module JsMath {

  /** A positive count: the carousel is only ever built over at least one slide. */
  type Pos = x: int | x >= 1 witness 1

  function Min(a: int, b: int): (m: int)
    ensures m <= a && m <= b
    ensures m == a || m == b
  {
    if a <= b then a else b
  }

  function Abs(a: int): (r: nat)
    ensures r == a || r == -a
  {
    if a >= 0 then a else -a
  }

  /** JavaScript's `a % n` on integers: the remainder of a division truncated
      toward zero, so it takes the sign of the dividend. Dafny's own `%` is
      Euclidean and never negative; the two agree when `a >= 0`. A zero
      remainder of a negative dividend is JavaScript's `-0`, which compares
      `===` equal to `0`, so it is modelled as `0`. */
  function Rem(a: int, n: Pos): (r: int)
    ensures -(n as int) < r < n
    ensures (a - r) % n == 0
    ensures a >= 0 ==> r >= 0
    ensures a <= 0 ==> r <= 0
  {
    if a >= 0 then
      DivModUnique(a - a % n, a / n, 0, n);
      a % n
    else
      DivModUnique(a + (-a) % n, -((-a) / n), 0, n);
      -((-a) % n)
  }

  /** A positive multiple of a positive count is at least that count. */
  lemma MulAtLeast(k: int, n: Pos)
    requires k >= 1
    ensures k * n >= n
  {
  }

  /** Euclidean division is unique: a quotient and a remainder in `[0, n)` that
      rebuild `x` are Dafny's `x / n` and `x % n`. */
  lemma DivModUnique(x: int, q: int, r: int, n: Pos)
    requires x == q * n + r && 0 <= r < n
    ensures x % n == r && x / n == q
  {
    var q0 := x / n;
    var r0 := x % n;
    assert x == q0 * n + r0;
    var d := q - q0;
    assert d * n == r0 - r by {
      assert q * n - q0 * n == (q - q0) * n;
    }
    if d > 0 {
      MulAtLeast(d, n);
    } else if d < 0 {
      MulAtLeast(-d, n);
    }
  }

  /** Adding whole multiples of `n` does not change the Euclidean residue. */
  lemma ModAddMultiple(a: int, q: int, n: Pos)
    ensures (a + q * n) % n == a % n
  {
    var a0 := a / n;
    assert a == a0 * n + a % n;
    assert a + q * n == (a0 + q) * n + a % n;
    DivModUnique(a + q * n, a0 + q, a % n, n);
  }

  /** Two integers have the same residue exactly when their difference is a multiple of `n`. */
  lemma SameResidue(a: int, b: int, n: Pos)
    ensures a % n == b % n <==> (a - b) % n == 0
  {
    var qa, qb := a / n, b / n;
    assert a == qa * n + a % n;
    assert b == qb * n + b % n;
    if a % n == b % n {
      assert a - b == (qa - qb) * n + 0;
      DivModUnique(a - b, qa - qb, 0, n);
    }
    if (a - b) % n == 0 {
      var k := (a - b) / n;
      assert a - b == k * n + 0;
      assert a == b + k * n;
      ModAddMultiple(b, k, n);
    }
  }

  /** Stepping one position forward in the residues mod `n` adds one cyclically. */
  lemma NextResidue(x: int, n: Pos)
    ensures (x + 1) % n == (x % n + 1) % n
  {
    DivModUnique(x - x % n, x / n, 0, n);
    SameResidue(x + 1, x % n + 1, n);
  }

  /** Moving `j` positions forward in the residues mod `n` adds `j` cyclically. */
  lemma AddResidue(x: int, j: int, n: Pos)
    ensures (x + j) % n == (x % n + j) % n
  {
    assert x == (x / n) * n + x % n;
    ModAddMultiple(x % n + j, x / n, n);
  }

  /** Stepping one position back in the residues mod `n` subtracts one cyclically. */
  lemma PrevResidue(x: int, n: Pos)
    ensures (x - 1) % n == (x % n - 1) % n
  {
    DivModUnique(x - x % n, x / n, 0, n);
    SameResidue(x - 1, x % n - 1, n);
  }

  /** If `v` is the residue of `x - p` and `r` in `[0, n)` is congruent to
      `x - d`, then `r` is the residue of `v + p - d`. */
  lemma ShiftedResidue(x: int, p: int, d: int, v: int, r: int, n: Pos)
    requires v == (x - p) % n
    requires (x - d - r) % n == 0
    requires 0 <= r < n
    ensures r == (v + p - d) % n
  {
    DivModUnique(v, 0, v, n);
    SameResidue(v, x - p, n);
    var q1 := (v - (x - p)) / n;
    var q2 := (x - d - r) / n;
    assert v - (x - p) == q1 * n;
    assert x - d - r == q2 * n;
    assert (v + p - d) - r == (q1 + q2) * n + 0;
    DivModUnique((v + p - d) - r, q1 + q2, 0, n);
    SameResidue(v + p - d, r, n);
    DivModUnique(r, 0, r, n);
  }
}

=== FILE: layout.dfy ===
/** The clone-padded slide sequence that `setupClones` builds, with each
    slide written as the index of the original slide it shows. */
module Layout {
  import opened JsMath

  /** `Math.ceil(3 * slidesPerView)`: the number of clones appended after the
      originals. The count of slides per view is whole, so the ceiling changes nothing. */
  function ClonesCount(spv: int): (c: int)
    ensures spv >= 1 ==> c >= 3
  {
    3 * spv
  }

  /** Clones placed before the originals: the last `clones` originals, but
      never more than there are originals. */
  function PrefixLength(n: Pos, clones: nat): (p: nat)
    ensures 1 <= p <= n || (clones == 0 && p == 0)
    ensures p <= clones
  {
    Min(clones, n)
  }

  /** The padded sequence: the last `PrefixLength` originals in their order, all
      originals, then `clones` originals taken cyclically from the start. */
  function Padded(n: Pos, clones: nat): (p: seq<nat>)
    ensures |p| == PrefixLength(n, clones) + n + clones
  {
    var m := PrefixLength(n, clones);
    seq(m, k requires 0 <= k < m => n - m + k) + seq(n, k => k) + seq(clones, k requires 0 <= k => k % n)
  }

  /** The slide at one position of the padded sequence. */
  lemma PaddedAt(n: Pos, clones: nat, k: int)
    requires 0 <= k < |Padded(n, clones)|
    ensures Padded(n, clones)[k] == (k - PrefixLength(n, clones)) % n
  {
    var m := PrefixLength(n, clones);
    if k < m {
      DivModUnique(k - m, -1, n - m + k, n);
    } else if k < m + n {
      DivModUnique(k - m, 0, k - m, n);
    } else {
      ModAddMultiple(k - m - n, 1, n);
    }
  }

  /** Read from position `PrefixLength`, the padded sequence is the originals'
      cyclic order: position `k` shows original `(k - PrefixLength) mod n`, on
      both sides of the originals as well as among them. */
  lemma PaddedClosedForm(n: Pos, clones: nat)
    ensures var p := Padded(n, clones);
      forall k :: 0 <= k < |p| ==> p[k] == (k - PrefixLength(n, clones)) % n
  {
    forall k | 0 <= k < |Padded(n, clones)| {
      PaddedAt(n, clones, k);
    }
  }

  /** `setupClones` as written: append `clones` copies of the originals taken
      cyclically from the first, then walk the originals backwards from the
      last down to `max(0, n - clones)`, inserting each before the current
      first slide. The result is the padded sequence. */
  method BuildPadded(n: Pos, clones: nat) returns (slides: seq<nat>)
    ensures slides == Padded(n, clones)
  {
    slides := seq(n, k => k);
    for i := 0 to clones
      invariant slides == seq(n, k => k) + seq(i, k requires 0 <= k => k % n)
    {
      slides := slides + [i % n];
    }
    var stop := if n - clones > 0 then n - clones else 0;
    var i := n - 1;
    while i >= stop
      invariant stop - 1 <= i <= n - 1
      invariant slides == seq(n - 1 - i, k requires 0 <= k => i + 1 + k) + seq(n, k => k) + seq(clones, k requires 0 <= k => k % n)
    {
      slides := [i] + slides;
      i := i - 1;
    }
    ghost var m := PrefixLength(n, clones);
    assert n - 1 - i == m;
    assert slides == Padded(n, clones);
  }

  /** Neighbouring slides of the padded sequence are neighbours in the
      originals' cyclic order: after original `j` comes original `(j + 1) mod n`. */
  lemma PaddedIsCyclic(n: Pos, clones: nat)
    ensures var p := Padded(n, clones);
      forall k :: 0 <= k < |p| - 1 ==> p[k + 1] == (p[k] + 1) % n
  {
    var p := Padded(n, clones);
    var m := PrefixLength(n, clones);
    forall k | 0 <= k < |p| - 1
      ensures p[k + 1] == (p[k] + 1) % n
    {
      PaddedAt(n, clones, k);
      PaddedAt(n, clones, k + 1);
      NextResidue(k - m, n);
    }
  }

  /** The block right after the leading clones is the originals, in order. */
  lemma PaddedHoldsOriginals(n: Pos, clones: nat)
    ensures var m := PrefixLength(n, clones);
      Padded(n, clones)[m..m + n] == seq(n, k => k)
  {
  }
}

=== FILE: rendering.dfy ===
/** `updateActiveStates`: which slides and which pagination dot carry the
    `active` marker after a position update. */
module Rendering {
  import opened Carousel

  /** The number of `true` entries. */
  function CountTrue(a: seq<bool>): (c: nat)
    ensures c <= |a|
    ensures c == 0 <==> forall k :: 0 <= k < |a| ==> !a[k]
    decreases |a|
  {
    if |a| == 0 then 0
    else CountTrue(a[..|a| - 1]) + (if a[|a| - 1] then 1 else 0)
  }

  /** A marker sequence that is `true` exactly on `[lo, hi)` has `hi - lo` marks. */
  lemma {:induction false} CountInterval(a: seq<bool>, lo: int, hi: int)
    requires 0 <= lo <= hi <= |a|
    requires forall k :: 0 <= k < |a| ==> (a[k] <==> lo <= k < hi)
    ensures CountTrue(a) == hi - lo
    decreases |a|
  {
    if |a| > 0 {
      var last := |a| - 1;
      var front := a[..last];
      if hi == |a| {
        if lo == hi {
          CountInterval(front, last, last);
        } else {
          CountInterval(front, lo, last);
        }
      } else {
        CountInterval(front, lo, hi);
      }
    }
  }

  /** `index` clamped into `[0, len]`. */
  function Clamp(index: int, len: nat): (c: nat)
    ensures c <= len
    ensures 0 <= index <= len ==> c == index
  {
    if index < 0 then 0 else if index > len then len else index
  }

  /** The slides marked active: the `spv` positions starting at the current index. */
  function ActiveSlides(s: State): (a: seq<bool>)
    ensures |a| == s.len
  {
    seq(s.len, k => s.ci <= k < s.ci + s.spv)
  }

  /** The pagination dots marked active: the dot whose number equals the real index. */
  function ActiveDots(s: State): (d: seq<bool>)
    ensures |d| == s.n
  {
    seq(s.n, k => k == RealIndex(s))
  }

  /** As many slides are active as the window `[ci, ci + spv)` overlaps the
      padded sequence: `spv` of them when the window lies inside it, none
      when the index has left it. */
  lemma ActiveSlideCount(s: State)
    ensures CountTrue(ActiveSlides(s)) == Clamp(s.ci + s.spv, s.len) - Clamp(s.ci, s.len)
    ensures 0 <= s.ci && s.ci + s.spv <= s.len ==> CountTrue(ActiveSlides(s)) == s.spv
    ensures s.ci >= s.len ==> CountTrue(ActiveSlides(s)) == 0
  {
    CountInterval(ActiveSlides(s), Clamp(s.ci, s.len), Clamp(s.ci + s.spv, s.len));
  }

  /** Exactly one dot is active when the real index is non-negative, and no
      dot at all when JavaScript's remainder has made it negative. */
  lemma OneDotActiveIff(s: State)
    ensures CountTrue(ActiveDots(s)) == 1 <==> RealIndex(s) >= 0
    ensures RealIndex(s) < 0 ==> CountTrue(ActiveDots(s)) == 0
    ensures RealIndex(s) >= 0 ==> ActiveDots(s)[RealIndex(s)]
  {
    var r := RealIndex(s);
    if r >= 0 {
      CountInterval(ActiveDots(s), r, r + 1);
    } else {
      CountInterval(ActiveDots(s), 0, 0);
    }
  }
}

=== FILE: scenarios.dfy ===
/** Concrete event sequences for the carousel: a start-up on a wide window, swipes, and the
    behaviours the code has at the edges of its invariants. */
module Scenarios {
  import opened JsMath
  import opened Layout
  import opened Carousel
  import opened Rendering
  import opened Edges

  /** Handling `e` and then `rest` is handling `[e] + rest`. */
  lemma RunCons(s: State, e: Event, rest: seq<Event>)
    ensures Run(s, [e] + rest) == Run(Step(s, e), rest)
  {
    assert ([e] + rest)[1..] == rest;
  }

  /** Five slides on a 1200 px window: nine clones after the originals but
      only five before them, 19 slides in all, and the index starts at 9.
      Position 9 shows the last original, while the active dot is dot 1. */
  lemma FiveSlidesOnDesktop()
    ensures var s := Setup(5, 1200).value;
      && s.spv == 3 && ClonesCount(s.spv) == 9
      && s.len == 19 && s.ci == 9
      && Aligned(s) && Visible(s) == 4
      && RealIndex(s) == 1
  {
  }

  /** A 40 px swipe to the left in 150 ms is one press of the next button. */
  lemma SwipeLeftIsNext(s: State)
    requires !s.animating
    ensures var t := Run(s, [TouchStart(200), TouchMove(160), TouchEnd(150)]);
      t == NextSlide(s.(touchStartX := 200, touchMoveX := 160))
  {
  }

  /** A touch start does not forget the previous touch's last move: a slow
      swipe that does nothing, followed by a quick tap at the same start
      point, navigates as if the tap had been the swipe. */
  lemma StaleMoveMakesTapNavigate(s: State)
    requires !s.animating
    ensures Run(s, [TouchStart(300), TouchMove(200), TouchEnd(500), TouchStart(300), TouchEnd(100)]).ci == s.ci + 1
  {
  }

  /** Five slides on a narrow window, three presses of the previous button,
      each followed by its transition end: the last snap lands at index 13. */
  lemma OvershootRun()
    ensures Run(Setup(5, 500).value, [Prev, TransitionEnd, Prev, TransitionEnd, Prev, TransitionEnd])
      == State(5, 1, 13, 11, false, 0, 0)
  {
    var s := Setup(5, 500).value;
    var s1 := Step(s, Prev);
    var s2 := Step(s1, TransitionEnd);
    var s3 := Step(s2, Prev);
    var s4 := Step(s3, TransitionEnd);
    var s5 := Step(s4, Prev);
    var s6 := Step(s5, TransitionEnd);
    assert s == State(5, 1, 3, 11, false, 0, 0);
    assert s2 == State(5, 1, 2, 11, false, 0, 0);
    assert s4 == State(5, 1, 1, 11, false, 0, 0);
    assert s5 == State(5, 1, 0, 11, true, 0, 0);
    assert RealIndex(s5) == Rem(4, 5) == 4;
    assert s6 == State(5, 1, 13, 11, false, 0, 0);
    RunCons(s, Prev, [TransitionEnd, Prev, TransitionEnd, Prev, TransitionEnd]);
    RunCons(s1, TransitionEnd, [Prev, TransitionEnd, Prev, TransitionEnd]);
    RunCons(s2, Prev, [TransitionEnd, Prev, TransitionEnd]);
    RunCons(s3, TransitionEnd, [Prev, TransitionEnd]);
    RunCons(s4, Prev, [TransitionEnd]);
    RunCons(s5, TransitionEnd, []);
  }

  /** Five slides on a narrow window, three presses of the previous button:
      the lower-edge snap sends the index to 13, past the 11 slides of the
      padded sequence, so no slide is active. */
  lemma LowerEdgeOvershoot()
    ensures var s := Setup(5, 500).value;
      var t := Run(s, [Prev, TransitionEnd, Prev, TransitionEnd, Prev, TransitionEnd]);
      && s.len == 11 && t.ci == 13 && !t.animating
      && CountTrue(ActiveSlides(t)) == 0
  {
    OvershootRun();
    ActiveSlideCount(State(5, 1, 13, 11, false, 0, 0));
  }

  /** Two slides at 500 px, two presses back, a resize to 1200 px and one more
      press back, each press followed by its transition end: the index ends at
      0 with three slides per view. */
  lemma WideningRun()
    ensures Run(Setup(2, 500).value, [Prev, TransitionEnd, Prev, TransitionEnd, Resize(1200), Prev, TransitionEnd])
      == State(2, 3, 0, 7, false, 0, 0)
  {
    var s := Setup(2, 500).value;
    var s1 := Step(s, Prev);
    var s2 := Step(s1, TransitionEnd);
    var s3 := Step(s2, Prev);
    var s4 := Step(s3, TransitionEnd);
    var s5 := Step(s4, Resize(1200));
    var s6 := Step(s5, Prev);
    var s7 := Step(s6, TransitionEnd);
    assert s == State(2, 1, 3, 7, false, 0, 0);
    assert s2 == State(2, 1, 2, 7, false, 0, 0);
    assert s4 == State(2, 1, 1, 7, false, 0, 0);
    assert s6 == State(2, 3, 0, 7, true, 0, 0);
    assert RealIndex(s6) == Rem(-1, 2) == -1;
    assert s7 == State(2, 3, 0, 7, false, 0, 0);
    RunCons(s, Prev, [TransitionEnd, Prev, TransitionEnd, Resize(1200), Prev, TransitionEnd]);
    RunCons(s1, TransitionEnd, [Prev, TransitionEnd, Resize(1200), Prev, TransitionEnd]);
    RunCons(s2, Prev, [TransitionEnd, Resize(1200), Prev, TransitionEnd]);
    RunCons(s3, TransitionEnd, [Resize(1200), Prev, TransitionEnd]);
    RunCons(s4, Resize(1200), [Prev, TransitionEnd]);
    RunCons(s5, Prev, [TransitionEnd]);
    RunCons(s6, TransitionEnd, []);
  }

  /** Widening the window past a breakpoint breaks the invariant: two slides
      at 500 px, two presses back, a resize to 1200 px and one more press back
      leave the real index at -1, and no pagination dot is active. */
  lemma WideningResizeLosesDot()
    ensures var s := Setup(2, 500).value;
      var t := Run(s, [Prev, TransitionEnd, Prev, TransitionEnd, Resize(1200), Prev, TransitionEnd]);
      && t.ci == 0 && RealIndex(t) == -1
      && CountTrue(ActiveDots(t)) == 0
  {
    WideningRun();
    assert RealIndex(State(2, 3, 0, 7, false, 0, 0)) == Rem(-1, 2) == -1;
    OneDotActiveIff(State(2, 3, 0, 7, false, 0, 0));
  }
}

=== FILE: viewport.dfy ===
/** The viewport breakpoints that decide how many slides the carousel shows at once. */
module Viewport {

  /** A slides-per-view count: the carousel shows one, two or three slides. */
  type Spv = x: int | 1 <= x <= 3 witness 1

  /** Widths at and above which the carousel shows three, respectively two, slides. */
  const DesktopWidth := 1024
  const TabletWidth := 768

  /** `getSlidesPerView`: three slides on a desktop-wide window, two on a
      tablet-wide one, one below that. */
  function SlidesPerView(width: int): (r: Spv)
    ensures r == 3 <==> width >= DesktopWidth
    ensures r == 2 <==> TabletWidth <= width < DesktopWidth
    ensures r == 1 <==> width < TabletWidth
  {
    if width >= DesktopWidth then 3
    else if width >= TabletWidth then 2
    else 1
  }

  /** A wider window never shows fewer slides. */
  lemma SlidesPerViewMonotone(narrow: int, wide: int)
    requires narrow <= wide
    ensures SlidesPerView(narrow) <= SlidesPerView(wide)
  {
  }

  /** One width in each band: 800 px, 1200 px and 500 px wide. */
  lemma SlidesPerViewExamples()
    ensures SlidesPerView(800) == 2
    ensures SlidesPerView(1200) == 3
    ensures SlidesPerView(500) == 1
  {
  }
}
